=== FILE: README.md ===
# SectionedListView, modelled in Dafny

SectionedListView is a JavaFX list view whose items come from a data source
organised in sections, each with an optional header and a number of rows.
This project models its in-memory core:

- **Flattening** (`Flattening`, `SectionedListViews.FlattenDataSource`): a reload
  turns the data source into one flat list of display entries. Each entry is a
  section header or a row wrapping one raw item. Sections come in ascending
  order. Each section's header, when it has one, precedes its rows `0 .. rows-1`.
- **View pool** (`ViewPools`): row views are pooled per kind of raw item (the
  raw item's runtime class in the source, an abstract `kindOf` function here).
  Header views are pooled in one list. A dequeue hands out the first pooled
  view whose live parent link is null, so it never returns an attached view.
- **Selection** (`Selection`, `SectionedListViews.RecoverSelection`): a click
  toggles a row in the kept selection list. A reload re-projects that list
  onto the new entries as the ordered indices passed to the host's `select`.
  Queries return the selected and non-selected raw items.
- **Cell binding** (`CellContainers`): each bind of an outer list cell shows
  nothing, a header view or a row view. It reuses a free pooled view or builds
  one with the cell factory and pools it. The result is a transition of the
  pool state.

Entries (`ListItems.Item`) and locators (`IndexPaths.IndexPath`) are immutable
datatypes. The header sentinel row is `IndexPaths.SectionHeaderRow = -1`. Java
`null` is `Optional.None`. Raw-item `equals` is value equality on a type with
`==`. The data source, the cell factory, the parent links of nodes and the
host selection model are inputs.

Some behaviours of the code worth stating up front:

- A negative section or row count contributes no entries. The code does not
  report it as an error.
- The code validates no count. The new list is built in a local list and
  installed only once it is complete; recovery runs after the install.
- A failing bind is not isolated. A null dereference in a bind is returned
  as a `CellContainers.BindError`.
- The non-selected query does not remove the selected raw items (see Findings).
- The selection list holds entries, not raw items, and a reload never prunes it.
  Clicks alone keep it free of headers and of two entries with equal non-null
  raw items (`Selection.UniqueRaws`). The membership lemmas assume this.

## Model

| member | source | states |
|---|---|---|
| IndexPaths.MakeIndexPath | src/main/java/tw/funymph/javafx/widget/ImmutableIndexPath.java:46-59 | The constructor accepts any pair of ints, the -1 sentinel included. The section and row read back are exactly those given. |
| ListItems.GetItemForSectionHeader | src/main/java/tw/funymph/javafx/widget/ImmutableSectionedListItem.java:49-51 | The header factory yields a header entry with the given section, row index -1 and a null raw item. |
| ListItems.GetItemForRow | src/main/java/tw/funymph/javafx/widget/ImmutableSectionedListItem.java:61-63 | The row factory yields a non-header entry that reads back exactly the given section, row and raw item. |
| ListItems.FactoryOrigin | src/main/java/tw/funymph/javafx/widget/ImmutableSectionedListItem.java:49-81 | Every entry is rebuilt from its own accessors by exactly one factory. It is a header exactly when the header factory builds it. |
| ListItems.GetIndexPath | src/main/java/tw/funymph/javafx/widget/ImmutableSectionedListItem.java:94-106 | The entry's index path reads back the entry's section and row index. A header's path row is the -1 sentinel. A sentinel row alone does not make an entry a header: the row factory accepts row -1 unchecked. |
| Flattening.NumberOfSections | src/main/java/tw/funymph/javafx/widget/SectionedListView.java:142-144 | The section count is 0 without a data source and the data source's own count otherwise. Whenever it is 0 or negative, the flattened list is empty. |
| Flattening.FlattenLength | src/main/java/tw/funymph/javafx/widget/SectionedListView.java:125-144 | The flattened length is the sum over sections of (header ? 1 : 0) + max(rows, 0). Without a data source the list is empty. |
| Flattening.FlattenPositions | src/main/java/tw/funymph/javafx/widget/SectionedListView.java:125-137 | Every header and row is present at a known position. Section s starts at the sum of the earlier sections' sizes, with its header first. Row r of section s follows and wraps the data source's item at (s, r). |
| Flattening.FlattenSound | src/main/java/tw/funymph/javafx/widget/SectionedListView.java:128-136 | Every entry is a header of a section that asked for one, or a row in range wrapping the data source's item at that locator. |
| Flattening.FlattenOrdered | src/main/java/tw/funymph/javafx/widget/SectionedListView.java:128-136 | Entries are strictly ascending in (section, row) order, with the header's -1 before row 0. So no entry occurs twice. |
| Flattening.FlattenExample | src/main/java/tw/funymph/javafx/widget/SectionedListView.java:125-137 | Example: section 0 has a header and rows a1, a2; section 1 has no header and row b1. The list is [Header(0), Row(0,0,a1), Row(0,1,a2), Row(1,0,b1)]. |
| SectionedListViews.FlattenDataSource | src/main/java/tw/funymph/javafx/widget/SectionedListView.java:125-138 | The nested reload loop builds exactly the flattened list, whose length is the sum above. |
| SectionedListViews.FindFirstMatch | src/main/java/tw/funymph/javafx/widget/SectionedListView.java:306-311 | The inner scan with `break` finds a match exactly when one exists, and it finds the first one. |
| SectionedListViews.RecoverSelection | src/main/java/tw/funymph/javafx/widget/SectionedListView.java:303-313 | The nested recovery loop issues exactly the recovery's index sequence. |
| SectionedListViews.ReloadData | src/main/java/tw/funymph/javafx/widget/SectionedListView.java:125-140 | A reload installs the flattened list and issues the recovery indices. Each index points at a row. Every selected raw item present in the new list gets highlighted. |
| ViewPools.FirstFreeIndex | src/main/java/tw/funymph/javafx/widget/SectionedListView.java:295-297 | The stream's `filter(parent == null).findFirst()` returns the first unattached node, or nothing when all are attached. |
| ViewPools.EnqueueReusableCell | src/main/java/tw/funymph/javafx/widget/SectionedListView.java:281-288 | Enqueue appends exactly one node to its kind's list and creates the list if absent. Duplicates are kept. Other kinds and the header list are unchanged. |
| ViewPools.DequeueReusableCell | src/main/java/tw/funymph/javafx/widget/SectionedListView.java:290-298 | Dequeue gives nothing for a kind never enqueued. Otherwise it gives the first node of the kind in enqueue order whose parent is null, so never an attached node. It gives nothing only when all are attached. |
| ViewPools.EnqueueThenDequeue | src/main/java/tw/funymph/javafx/widget/SectionedListView.java:281-298 | After enqueueing a free node, dequeue for that kind still yields the earlier free node if there was one, and the new node otherwise. |
| ViewPools.EnqueueKeepsOtherKinds | src/main/java/tw/funymph/javafx/widget/SectionedListView.java:281-298 | Enqueueing under one kind leaves what every other kind dequeues unchanged. |
| ViewPools.EnqueueReusableHeader | src/main/java/tw/funymph/javafx/widget/SectionedListCellContainer.java:97 | A header view is appended to the header list; row lists are unchanged. |
| ViewPools.DequeueReusableHeader | src/main/java/tw/funymph/javafx/widget/SectionedListCellContainer.java:90 | A reused header is the first free header in enqueue order. Nothing is returned only when every pooled header is attached. |
| ViewPools.EnqueueThenDequeueHeader | src/main/java/tw/funymph/javafx/widget/SectionedListCellContainer.java:90-98 | The header list follows the same enqueue-then-dequeue law as a row list. |
| Selection.FirstMatch | src/main/java/tw/funymph/javafx/widget/SectionedListView.java:251-257 | The search returns the position of the first entry whose raw item is non-null and equal to the probe. It returns nothing exactly when no entry matches. |
| Selection.UpdateSelectedItemsOnClick | src/main/java/tw/funymph/javafx/widget/SectionedListView.java:244-266 | A click on an empty slot or header leaves the list unchanged. Otherwise it removes exactly the first matching selected entry, or appends the clicked entry. It keeps the lists free of headers and of duplicate non-null raws. |
| Selection.ClickFlipsMembership | src/main/java/tw/funymph/javafx/widget/SectionedListView.java:251-264 | A click on a row with non-null raw x flips x's membership in the set of selected raw items. |
| Selection.ClickOnNullRawAppends | src/main/java/tw/funymph/javafx/widget/SectionedListView.java:251-264 | A row with a null raw item matches no selected entry, so each click appends it again. |
| Selection.ClickTwiceRestores | src/main/java/tw/funymph/javafx/widget/SectionedListView.java:251-264 | Two clicks on a row whose non-null raw item is not selected give back the original list exactly. |
| Selection.ClickTwiceRestoresMembership | src/main/java/tw/funymph/javafx/widget/SectionedListView.java:251-264 | Two clicks on any row with a non-null raw item give back the original set of selected raw items. |
| Selection.RecoverSelectionModel | src/main/java/tw/funymph/javafx/widget/SectionedListView.java:303-313 | Recovery issues at most one index per selected entry. Each index points at a row with a selected non-null raw item and is that raw item's first position. The first match of every matched selected entry is issued; unmatched entries issue nothing. |
| Selection.RecoverSelectionModelConcat | src/main/java/tw/funymph/javafx/widget/SectionedListView.java:305-312 | Together with the single-entry law this fixes the `select(i)` call sequence. Recovery runs over the selection list in order, so the indices for a concatenation are those for each part in turn. |
| Selection.RecoverSelectionModelSingle | src/main/java/tw/funymph/javafx/widget/SectionedListView.java:306-311 | One selected entry issues exactly the first current position carrying its non-null raw item, or nothing when no current entry carries it. |
| Selection.RecoveryHighlightsPresentSelection | src/main/java/tw/funymph/javafx/widget/SectionedListView.java:303-313 | An issued index carries raw x exactly when x is selected and present in the new list. Selected raws absent from the new list are not highlighted. |
| Selection.AllMatchesSound | src/main/java/tw/funymph/javafx/widget/SectionedListView.java:321-325 | The inner loop collects every current entry equal in non-null raw item, not only the first. |
| Selection.AllMatchesConcat | src/main/java/tw/funymph/javafx/widget/SectionedListView.java:321-325 | The inner loop appends each match once, in current-list order: the matches in a concatenation are the parts' matches in turn. |
| Selection.AllMatchesSingle | src/main/java/tw/funymph/javafx/widget/SectionedListView.java:322-324 | One current entry is a match exactly when its non-null raw item equals the selected one. |
| Selection.UpdateSelectedItemsListSound | src/main/java/tw/funymph/javafx/widget/SectionedListView.java:318-329 | The rebuilt list holds exactly the current entries whose non-null raw item is selected, and no header. |
| Selection.UpdateSelectedItemsListConcat | src/main/java/tw/funymph/javafx/widget/SectionedListView.java:320-326 | The outer loop runs over the selection list in order: rebuilding a concatenation gives the parts' rebuilds in turn. |
| Selection.UpdateSelectedItemsListSingle | src/main/java/tw/funymph/javafx/widget/SectionedListView.java:321-325 | One selected entry contributes all matching current entries, in list order. |
| Selection.GetSelectedRawItems | src/main/java/tw/funymph/javafx/widget/SectionedListView.java:193-198 | The query reads the host selection, skipping null slots and headers. It returns exactly the raw items of its row entries, never more items than slots. |
| Selection.GetSelectedRawItemsConcat | src/main/java/tw/funymph/javafx/widget/SectionedListView.java:193-198 | Together with the single-slot law this fixes the result sequence, order and repeats included. The query is a list-ordered filter-and-map, so a concatenation gives the parts' results in turn. |
| Selection.GetSelectedRawItemsSingle | src/main/java/tw/funymph/javafx/widget/SectionedListView.java:195-196 | One slot gives its entry's raw item when it holds a row, and nothing when it is null or holds a header. |
| Selection.GetNonSelectedRawItemsAsWritten | src/main/java/tw/funymph/javafx/widget/SectionedListView.java:205-213 | As written, only row raws are returned. The wrapper-versus-raw `contains` decides the rest. |
| Selection.KeepUnlistedWrappers | src/main/java/tw/funymph/javafx/widget/SectionedListView.java:207-212 | The filter keeps only rows' raw items. It keeps every row when no wrapper equals a listed raw item. |
| Selection.NonSelectedAsWrittenKeepsAllRows | src/main/java/tw/funymph/javafx/widget/SectionedListView.java:205-213 | With the entry class's identity `equals`, the as-written query returns the raw item of every row, selected or not. |
| Selection.NonSelectedAsWrittenCounterexample | src/main/java/tw/funymph/javafx/widget/SectionedListView.java:205-213 | Example: one row carrying 1 is selected in the host, yet the as-written query returns [1]. |
| Selection.GetNonSelectedRawItems | src/main/java/tw/funymph/javafx/widget/SectionedListView.java:205-213 | The corrected query returns exactly the rows' raw items that are not among the selected raw items. |
| Selection.GetNonSelectedRawItemsConcat | src/main/java/tw/funymph/javafx/widget/SectionedListView.java:207-212 | Together with the single-entry law this fixes the corrected query's result sequence. The query filters the current list in list order, so a concatenation gives the parts' results in turn. |
| Selection.GetNonSelectedRawItemsSingle | src/main/java/tw/funymph/javafx/widget/SectionedListView.java:208-211 | One entry gives its raw item exactly when it is a row whose raw item is not selected. |
| Selection.RowRawsConcat | src/main/java/tw/funymph/javafx/widget/SectionedListView.java:207-212 | The rows' raw items are collected in list order: a concatenation gives the parts' results in turn. |
| Selection.RowRawsSingle | src/main/java/tw/funymph/javafx/widget/SectionedListView.java:209-211 | A row gives its raw item and a header gives nothing. |
| Selection.SelectedAndNonSelectedPartitionRows | src/main/java/tw/funymph/javafx/widget/SectionedListView.java:193-213 | With the corrected query, every row's raw item is either selected or non-selected, never both. |
| CellContainers.FormattedHeaderView | src/main/java/tw/funymph/javafx/widget/SectionedListCellContainer.java:87-99 | The title is re-read from the data source by the entry's section. A header is reused exactly when the header dequeue yields it, and reuse leaves the pool unchanged. The row lists are never touched. Otherwise, when no pooled header is free, the factory's header is appended to the header list. The returned view is pooled. |
| CellContainers.FormattedCell | src/main/java/tw/funymph/javafx/widget/SectionedListCellContainer.java:107-117 | A row view is reused exactly when the dequeue for the raw item's kind yields it, which is the first free view of that kind. Reuse leaves the pool unchanged. Otherwise, when no view of the kind is free, the factory builds one from the entry's path and raw item. That view is appended to its kind's list only. The key set grows by at most that kind, every other kind's list and the header list are unchanged, and the returned view is always in its kind's list. |
| CellContainers.UpdateItem | src/main/java/tw/funymph/javafx/widget/SectionedListCellContainer.java:63-76 | An empty slot or negative index clears the cell and leaves the pool alone. Otherwise exactly one of the header and row branches runs, for the graphic and for the pool alike. A header bind leaves the row lists unchanged. A row bind leaves the header list and every other kind's list unchanged. Either branch reuses exactly the view its dequeue yields. A reused view leaves the pool unchanged. A created view is the factory's node for the entry, and it is the only node appended to its own list. A null entry, a missing data source for a header, or a null raw item is a null dereference. A successful bind only appends to the pool. |
| CellContainers.DetachedViewIsReused | src/main/java/tw/funymph/javafx/widget/SectionedListCellContainer.java:107-117 | Suppose a first bind creates the only view of its kind and that view is later detached. A second bind of a same-kind raw item then gets that very view back. |
| CellContainers.GetRawItemAsWritten | src/main/java/tw/funymph/javafx/widget/SectionedListCellContainer.java:78-80 | As written, the query is empty when nothing is bound and gives the raw item of a row. It throws when the bound entry's raw item is null. |
| CellContainers.GetRawItemThrowsOnHeader | src/main/java/tw/funymph/javafx/widget/SectionedListCellContainer.java:78-80 | A cell bound to a header entry throws when queried. |
| CellContainers.GetRawItem | src/main/java/tw/funymph/javafx/widget/SectionedListCellContainer.java:78-80 | The corrected query is empty exactly when nothing is bound or the raw item is null. Otherwise it gives the bound entry's raw item. |
| CellContainers.GetRawItemAgreesWhereDefined | src/main/java/tw/funymph/javafx/widget/SectionedListCellContainer.java:78-80 | The corrected query agrees with the written one wherever the written one returns. It is empty where the written one throws. |

## Left out

- JavaFX rendering: scroll-bar disabling, the listener that keeps the list's own cell callback, padding, outer-cell style, and `setText`/`setGraphic` beyond recording the chosen graphic.
- Scene-graph reparenting: setting a graphic attaches it and detaches the previous one. Parent links are an input snapshot, not updated by a bind.
- The weak back-reference from a cell to its list view: the list view is taken to be alive at every bind.
- Runtime-class pool keys: an abstract `kindOf` function replaces `getClass()`.
- Header-pool internals: `dequeueReusableHeader` and `enqueueReusableHeader` are called by the cell but not defined in SectionedListView.java. They are modelled as one list with the row pool's first-free and append behaviour. This is an assumption, not the source.
- JavaFX selection-model semantics of `select(i)` (single versus multiple mode): only the issued index sequence is modelled.
- The click wiring in `call` and the `instanceof ListCell` check on the event source: a click is modelled as the clicked cell's entry.
- Property setters and getters for the data source and cell factory: each assigns and then reloads, which is `ReloadData`. The default label-based factory and its label cell are left out: the model takes any `CellFactory` as input (see the `CellContainers.CellFactory` line below).
- Java `int` width: counts are unbounded integers. Loop counters only run up to an `int` count, so no wrap-around can occur.
- User-defined `equals`: modelled as value equality. So it is taken to be reflexive and symmetric.
- `indexOf` in recovery: the entry class keeps identity `equals`, and a reload creates each entry object once. So `indexOf` of the matched entry is its loop position, and the model issues that position. `Flattening.FlattenOrdered` also shows the flattened entries are pairwise distinct as values.
- ClickTwiceRestores: exact restoration of the list is proved only when the clicked raw item was not selected. When it was selected, the second click re-appends the clicked entry at the end of the list. So only the set of selected raw items is restored, which ClickTwiceRestoresMembership proves.
- IndexPaths.IndexPath: Java keeps identity `equals` for index paths, since the class does not override it. A datatype value is instead determined by its two coordinates. No member of the model compares two paths.
- CellContainers.CellFactory: the factory always returns a node. The Java factory may return `null`. The cell would then pool that `null`, and a later dequeue of the same kind could throw NullPointerException at SectionedListView.java:296 if the scan reaches the `null` before a free node. That failure is not modelled. The model's factory is also a pure function of its non-cell arguments. The outer-cell argument of both factory methods is dropped. A factory that builds a fresh node on every call, as the default one does, is not modelled, so the model does not promise that a created view was not pooled before.
- Flattening.DataSource: the data-source callbacks are total functions. An exception thrown by one of them during a reload is not modelled. In the code it would leave the previous list installed, because the new list is installed only after it is fully built.
- The demo application.

## Findings

| source | as written | input that shows it | evidently intended | confidence | as-written member | corrected member |
|---|---|---|---|---|---|---|
| src/main/java/tw/funymph/javafx/widget/SectionedListView.java:205-213 | `selectedItems.contains(item)` looks up the wrapper entry in a list of raw items, so with identity `equals` nothing is ever filtered | current list [Row(0,0,1)], host selection [that entry]: the query returns [1] although 1 is selected (`NonSelectedAsWrittenCounterexample`) | test `contains(item.getRawItem())`, returning only rows whose raw item is not selected | not executed; high | Selection.GetNonSelectedRawItemsAsWritten | Selection.GetNonSelectedRawItems |
| src/main/java/tw/funymph/javafx/widget/SectionedListCellContainer.java:78-80 | `Optional.of(getItem().getRawItem())` throws NullPointerException when the bound entry's raw item is null, which is always the case for a header | a cell bound to Header(0) (`GetRawItemThrowsOnHeader`) | `Optional.ofNullable`: empty for a header or a null raw item | not executed; high | CellContainers.GetRawItemAsWritten | CellContainers.GetRawItem |

=== FILE: cell_container.dfy ===
/** The outer list cell: on every bind it shows nothing, a header view or a
    row view, reusing a free pooled view or building one with the cell
    factory and pooling it. */
module CellContainers {
  import opened Optional
  import opened IndexPaths
  import opened ListItems
  import opened Flattening
  import opened ViewPools

  /** The cell factory collaborator: builds a row view from an index path and
      raw item, and a header view from a section index and title. */
  datatype CellFactory<!T> = CellFactory(
    getRowCell: (IndexPath, T) -> NodeId,
    getSectionHeader: (int, string) -> NodeId)

  /** What a bind sets as the cell's graphic, and whether the view came from
      the pool. A reused view is updated with the title or raw item shown. */
  datatype Graphic<T> =
    | NoGraphic
    | HeaderView(node: NodeId, title: string, reused: bool)
    | RowView(node: NodeId, raw: T, reused: bool)

  /** The null dereferences a bind can run into. */
  datatype BindError = NullEntry | NullDataSource | NullRawItem

  datatype Result<R> = Success(value: R) | Failure(error: BindError)

  /** The pool after a bind, and the graphic the bind set. */
  datatype Bound<T, K> = Bound(pool: Pool<K>, graphic: Graphic<T>)

  /** `after` only appends to the lists of `before`. */
  ghost predicate Extends<K>(before: Pool<K>, after: Pool<K>) {
    && before.headers <= after.headers
    && before.cells.Keys <= after.cells.Keys
    && forall k :: k in before.cells ==> before.cells[k] <= after.cells[k]
  }

  /** The header view of a header entry. The title is read from the data
      source by the entry's section on every bind, never cached in the entry.
      A free pooled header is reused; otherwise the factory builds one, which
      is pooled. */
  function FormattedHeaderView<T, K>(pool: Pool<K>, parent: ParentLinks, ds: DataSource<T>,
                                     factory: CellFactory<T>, item: Item<T>): (r: Bound<T, K>)
    ensures r.graphic.HeaderView?
    ensures r.graphic.title == ds.sectionTitle(item.section)
    ensures r.graphic.node in r.pool.headers
    ensures r.pool.cells == pool.cells
    ensures r.graphic.reused <==> DequeueReusableHeader(pool, parent) == Some(r.graphic.node)
    ensures r.graphic.reused ==> r.pool == pool && IsFree(parent, r.graphic.node)
    ensures !r.graphic.reused ==>
              && (forall n :: n in pool.headers ==> !IsFree(parent, n))
              && r.graphic.node == factory.getSectionHeader(item.section, r.graphic.title)
              && r.pool.headers == pool.headers + [r.graphic.node]
  {
    var section := GetIndexPath(item).section;
    var title := ds.sectionTitle(section);
    match DequeueReusableHeader(pool, parent)
    case Some(header) => Bound(pool, HeaderView(header, title, true))
    case None =>
      var header := factory.getSectionHeader(section, title);
      Bound(EnqueueReusableHeader(pool, header), HeaderView(header, title, false))
  }

  /** The row view of a row entry with a non-null raw item. A free pooled view
      of the raw item's kind is reused; otherwise the factory builds one from
      the entry's index path and raw item, and it is pooled under that kind. */
  function FormattedCell<T, K>(pool: Pool<K>, parent: ParentLinks, factory: CellFactory<T>,
                               kindOf: T -> K, item: Item<T>): (r: Bound<T, K>)
    requires item.RawItem().Some?
    ensures r.graphic.RowView? && r.graphic.raw == item.RawItem().value
    ensures kindOf(r.graphic.raw) in r.pool.cells
    ensures r.graphic.node in r.pool.cells[kindOf(r.graphic.raw)]
    ensures r.pool.headers == pool.headers
    ensures r.pool.cells.Keys == pool.cells.Keys + {kindOf(r.graphic.raw)}
    ensures forall k :: k in pool.cells && k != kindOf(r.graphic.raw) ==> r.pool.cells[k] == pool.cells[k]
    ensures r.graphic.reused <==> DequeueReusableCell(pool, parent, kindOf, r.graphic.raw) == Some(r.graphic.node)
    ensures r.graphic.reused ==> r.pool == pool && IsFree(parent, r.graphic.node)
    ensures !r.graphic.reused ==>
              && (forall n :: n in CellsOfKind(pool, kindOf(r.graphic.raw)) ==> !IsFree(parent, n))
              && r.graphic.node == factory.getRowCell(IndexPath(item.section, item.RowIndex()), r.graphic.raw)
              && r.pool.cells[kindOf(r.graphic.raw)] == CellsOfKind(pool, kindOf(r.graphic.raw)) + [r.graphic.node]
    ensures Extends(pool, r.pool)
  {
    var raw := item.RawItem().value;
    match DequeueReusableCell(pool, parent, kindOf, raw)
    case Some(cell) => Bound(pool, RowView(cell, raw, true))
    case None =>
      var cell := factory.getRowCell(GetIndexPath(item), raw);
      Bound(EnqueueReusableCell(pool, kindOf, raw, cell), RowView(cell, raw, false))
  }

  /** One bind of the outer cell to a list slot. An empty slot or a negative
      index clears the cell and leaves the pool alone; otherwise exactly one
      of the header and row branches runs. A null entry, a header with no
      data source, or a row with a null raw item dereferences null. */
  function UpdateItem<T, K>(pool: Pool<K>, parent: ParentLinks, source: Option<DataSource<T>>,
                            factory: CellFactory<T>, kindOf: T -> K,
                            item: Option<Item<T>>, empty: bool, index: int): (r: Result<Bound<T, K>>)
    ensures empty || index < 0 ==> r == Success(Bound(pool, NoGraphic))
    ensures !empty && index >= 0 && item.None? ==> r == Failure(NullEntry)
    ensures !empty && index >= 0 && item.Some? && item.value.IsHeaderItem() ==>
              if source.None? then r == Failure(NullDataSource)
              else r.Success? && r.value.graphic.HeaderView?
                   && r.value.graphic.title == source.value.sectionTitle(item.value.section)
    ensures !empty && index >= 0 && item.Some? && !item.value.IsHeaderItem() ==>
              if item.value.RawItem().None? then r == Failure(NullRawItem)
              else r.Success? && r.value.graphic.RowView?
                   && r.value.graphic.raw == item.value.RawItem().value
    ensures r.Success? ==> Extends(pool, r.value.pool)
    ensures r.Success? && r.value.graphic.HeaderView? && r.value.graphic.reused ==> r.value.pool == pool
    ensures r.Success? && r.value.graphic.HeaderView? && !r.value.graphic.reused ==>
              && r.value.graphic.node == factory.getSectionHeader(item.value.section, r.value.graphic.title)
              && r.value.pool.headers == pool.headers + [r.value.graphic.node]
    ensures r.Success? && r.value.graphic.RowView? && !r.value.graphic.reused ==>
              && r.value.graphic.node == factory.getRowCell(IndexPath(item.value.section, item.value.RowIndex()), r.value.graphic.raw)
              && kindOf(r.value.graphic.raw) in r.value.pool.cells
              && r.value.pool.cells[kindOf(r.value.graphic.raw)]
                   == CellsOfKind(pool, kindOf(r.value.graphic.raw)) + [r.value.graphic.node]
    ensures r.Success? && r.value.graphic.HeaderView? ==>
              && r.value.pool.cells == pool.cells
              && (r.value.graphic.reused <==> DequeueReusableHeader(pool, parent) == Some(r.value.graphic.node))
    ensures r.Success? && r.value.graphic.RowView? ==>
              && r.value.pool.headers == pool.headers
              && r.value.pool.cells.Keys == pool.cells.Keys + {kindOf(r.value.graphic.raw)}
              && (forall k :: k in pool.cells && k != kindOf(r.value.graphic.raw) ==>
                    r.value.pool.cells[k] == pool.cells[k])
              && (r.value.graphic.reused <==>
                    DequeueReusableCell(pool, parent, kindOf, r.value.graphic.raw) == Some(r.value.graphic.node))
    ensures r.Success? && r.value.graphic.HeaderView? ==> r.value.graphic.node in r.value.pool.headers
    ensures r.Success? && r.value.graphic.RowView? ==>
              kindOf(r.value.graphic.raw) in r.value.pool.cells
              && r.value.graphic.node in r.value.pool.cells[kindOf(r.value.graphic.raw)]
    ensures r.Success? && r.value.graphic.RowView? && r.value.graphic.reused ==> r.value.pool == pool
  {
    if empty || index < 0 then Success(Bound(pool, NoGraphic))
    else if item.None? then Failure(NullEntry)
    else if item.value.IsHeaderItem() then
      if source.None? then Failure(NullDataSource)
      else Success(FormattedHeaderView(pool, parent, source.value, factory, item.value))
    else if item.value.RawItem().None? then Failure(NullRawItem)
    else Success(FormattedCell(pool, parent, factory, kindOf, item.value))
  }

  /** Reuse across binds: when the view built for a first raw item is the only
      one of its kind and is later detached, a bind of another raw item of the
      same kind gets that very view back and leaves the pool as it was. */
  lemma DetachedViewIsReused<T, K>(pool: Pool<K>, parent: ParentLinks, later: ParentLinks,
                                   factory: CellFactory<T>, kindOf: T -> K,
                                   first: Item<T>, second: Item<T>)
    requires !first.IsHeaderItem() && first.RawItem().Some?
    requires !second.IsHeaderItem() && second.RawItem().Some?
    requires kindOf(first.RawItem().value) == kindOf(second.RawItem().value)
    requires kindOf(first.RawItem().value) !in pool.cells
    requires IsFree(later, factory.getRowCell(IndexPath(first.section, first.RowIndex()), first.RawItem().value))
    ensures var once := UpdateItem(pool, parent, None, factory, kindOf, Some(first), false, 0);
            && once.Success? && !once.value.graphic.reused
            && UpdateItem(once.value.pool, later, None, factory, kindOf, Some(second), false, 1)
                 == Success(Bound(once.value.pool, RowView(once.value.graphic.node, second.RawItem().value, true)))
  {
    var once := UpdateItem(pool, parent, None, factory, kindOf, Some(first), false, 0);
    assert CellsOfKind(pool, kindOf(first.RawItem().value)) == [];
    assert once.value.pool.cells[kindOf(first.RawItem().value)] == [once.value.graphic.node];
  }

  /** A query's outcome: a returned value or a thrown NullPointerException. */
  datatype Outcome<R> = Returned(value: R) | NullPointerThrown

  /** The cell's raw-item query as written: `Optional.of` of the bound
      entry's raw item, which throws on the null raw item of a header. */
  function GetRawItemAsWritten<T>(bound: Option<Item<T>>): (r: Outcome<Option<T>>)
    ensures bound.None? ==> r == Returned(None)
    ensures bound.Some? && bound.value.RawItem().Some? ==> r == Returned(bound.value.RawItem())
    ensures bound.Some? && bound.value.RawItem().None? ==> r == NullPointerThrown
  {
    match bound
    case None => Returned(None)
    case Some(e) => if e.RawItem().None? then NullPointerThrown else Returned(e.RawItem())
  }

  /** A cell bound to a header entry throws instead of answering. */
  lemma GetRawItemThrowsOnHeader<T>(section: int)
    ensures GetRawItemAsWritten(Some(GetItemForSectionHeader<T>(section))) == NullPointerThrown
  {
  }

  /** The cell's raw-item query as intended: empty when nothing is bound or
      the bound entry has no raw item, otherwise that raw item. */
  function GetRawItem<T>(bound: Option<Item<T>>): (r: Option<T>)
    ensures r.Some? <==> bound.Some? && bound.value.RawItem().Some?
    ensures r.Some? ==> r == bound.value.RawItem()
  {
    match bound
    case None => None
    case Some(e) => e.RawItem()
  }

  /** The intended query never throws and answers as the written one does
      wherever the written one returns. */
  lemma GetRawItemAgreesWhereDefined<T>(bound: Option<Item<T>>)
    ensures GetRawItemAsWritten(bound).Returned? ==> GetRawItemAsWritten(bound).value == GetRawItem(bound)
    ensures GetRawItemAsWritten(bound).NullPointerThrown? ==> GetRawItem(bound).None?
  {
  }
}

=== FILE: flattening.dfy ===
/** The projection of a data source's sections and rows onto one flat list of
    display entries, as rebuilt on every reload. */
module Flattening {
  import opened Optional
  import opened IndexPaths
  import opened ListItems

  /** A snapshot of the data source collaborator. Its queries are assumed to be
      pure for the duration of one reload. */
  datatype DataSource<T> = DataSource(
    numberOfSections: int,
    hasSectionHeader: int -> bool,
    sectionTitle: int -> string,
    numberOfRowsInSection: int -> int,
    getItem: IndexPath -> Option<T>)

  /** The list view's section count: zero when no data source is installed,
      and a count of zero or less leaves the flattened list empty. */
  function NumberOfSections<T>(source: Option<DataSource<T>>): (n: int)
    ensures source.None? ==> n == 0
    ensures source.Some? ==> n == source.value.numberOfSections
    ensures n <= 0 ==> Flatten(source) == []
  {
    match source
    case None => 0
    case Some(ds) => ds.numberOfSections
  }

  /** Rows a section contributes: a negative count contributes none. */
  function RowCount<T>(ds: DataSource<T>, section: int): (r: nat) {
    var rows := ds.numberOfRowsInSection(section);
    if rows < 0 then 0 else rows
  }

  function HeaderCount<T>(ds: DataSource<T>, section: int): (r: nat) {
    if ds.hasSectionHeader(section) then 1 else 0
  }

  function SectionSize<T>(ds: DataSource<T>, section: int): (r: nat) {
    HeaderCount(ds, section) + RowCount(ds, section)
  }

  /** The sum of the sizes of sections 0 .. k-1: the position where section k starts. */
  function Offset<T>(ds: DataSource<T>, k: int): (r: nat) {
    if k <= 0 then 0 else Offset(ds, k - 1) + SectionSize(ds, k - 1)
  }

  /** The expected length of the flattened list. */
  function TotalSize<T>(source: Option<DataSource<T>>): (r: nat) {
    match source
    case None => 0
    case Some(ds) => Offset(ds, ds.numberOfSections)
  }

  /** The row entries of one section, rows 0 .. rows-1 in order, each wrapping
      the item the data source gives at its locator. */
  function RowEntries<T>(ds: DataSource<T>, section: int): (r: seq<Item<T>>) {
    seq(RowCount(ds, section), r => GetItemForRow(section, r, ds.getItem(MakeIndexPath(section, r))))
  }

  /** The entries of one section: its header, when it has one, then its rows. */
  function SectionEntries<T>(ds: DataSource<T>, section: int): (r: seq<Item<T>>) {
    (if ds.hasSectionHeader(section) then [GetItemForSectionHeader(section)] else [])
      + RowEntries(ds, section)
  }

  /** The entries of sections 0 .. k-1, in section order. */
  function FlattenSections<T>(ds: DataSource<T>, k: int): (r: seq<Item<T>>) {
    if k <= 0 then [] else FlattenSections(ds, k - 1) + SectionEntries(ds, k - 1)
  }

  /** The flattened list a reload installs; empty when no data source is set. */
  function Flatten<T>(source: Option<DataSource<T>>): (r: seq<Item<T>>) {
    match source
    case None => []
    case Some(ds) => FlattenSections(ds, ds.numberOfSections)
  }

  /** An entry the data source vouches for: a section in range, a header only
      where the section has one, a row index in range wrapping that row's item. */
  ghost predicate ValidEntry<T>(ds: DataSource<T>, e: Item<T>) {
    && 0 <= e.section < ds.numberOfSections
    && (e.Header? ==> ds.hasSectionHeader(e.section))
    && (e.Row? ==> 0 <= e.row < RowCount(ds, e.section)
                   && e.raw == ds.getItem(IndexPath(e.section, e.row)))
  }

  /** `a` comes before `b` in (section, row) order; the header sentinel -1
      puts a header before every row of its section. */
  predicate Precedes<T>(a: Item<T>, b: Item<T>) {
    a.section < b.section || (a.section == b.section && a.RowIndex() < b.RowIndex())
  }

  predicate StrictlyOrdered<T>(items: seq<Item<T>>) {
    forall i, j :: 0 <= i < j < |items| ==> Precedes(items[i], items[j])
  }

  lemma {:induction false} FlattenSectionsLength<T>(ds: DataSource<T>, k: int)
    ensures |FlattenSections(ds, k)| == Offset(ds, k)
  {
    if k > 0 {
      FlattenSectionsLength(ds, k - 1);
    }
  }

  /** The flattened list has one entry per header plus one per non-negative row
      count, summed over the sections; no data source gives the empty list. */
  lemma FlattenLength<T>(source: Option<DataSource<T>>)
    ensures |Flatten(source)| == TotalSize(source)
    ensures source.None? ==> Flatten(source) == []
  {
    if source.Some? {
      FlattenSectionsLength(source.value, source.value.numberOfSections);
    }
  }

  lemma {:induction false} OffsetMonotone<T>(ds: DataSource<T>, a: int, b: int)
    requires 0 <= a <= b
    ensures Offset(ds, a) <= Offset(ds, b)
  {
    if a < b {
      OffsetMonotone(ds, a, b - 1);
    }
  }

  lemma {:induction false} FlattenSectionsAt<T>(ds: DataSource<T>, k: int, s: int)
    requires 0 <= s < k
    ensures Offset(ds, s + 1) <= |FlattenSections(ds, k)|
    ensures FlattenSections(ds, k)[Offset(ds, s)..Offset(ds, s + 1)] == SectionEntries(ds, s)
  {
    FlattenSectionsLength(ds, k);
    FlattenSectionsLength(ds, k - 1);
    var prefix := FlattenSections(ds, k - 1);
    if s == k - 1 {
      assert FlattenSections(ds, k)[Offset(ds, s)..Offset(ds, s + 1)] == SectionEntries(ds, s);
    } else {
      FlattenSectionsAt(ds, k - 1, s);
      OffsetMonotone(ds, s + 1, k - 1);
      assert FlattenSections(ds, k)[..|prefix|] == prefix;
    }
  }

  /** Completeness with positions: section s starts at Offset(s); its header,
      if any, sits there, and row r follows the header at Offset(s) + header + r,
      wrapping the data source's item at (s, r). */
  lemma FlattenPositions<T>(ds: DataSource<T>, s: int)
    requires 0 <= s < ds.numberOfSections
    ensures Offset(ds, s + 1) <= |Flatten(Some(ds))|
    ensures ds.hasSectionHeader(s) ==> Flatten(Some(ds))[Offset(ds, s)] == Header(s)
    ensures forall r :: 0 <= r < RowCount(ds, s) ==>
              Flatten(Some(ds))[Offset(ds, s) + HeaderCount(ds, s) + r]
                == Row(s, r, ds.getItem(IndexPath(s, r)))
  {
    FlattenSectionsAt(ds, ds.numberOfSections, s);
    SectionEntriesAt(ds, s);
    var flat := Flatten(Some(ds));
    forall r | 0 <= r < RowCount(ds, s)
      ensures flat[Offset(ds, s) + HeaderCount(ds, s) + r] == Row(s, r, ds.getItem(IndexPath(s, r)))
    {
      assert flat[Offset(ds, s) + HeaderCount(ds, s) + r]
          == SectionEntries(ds, s)[HeaderCount(ds, s) + r];
    }
    if ds.hasSectionHeader(s) {
      assert flat[Offset(ds, s)] == SectionEntries(ds, s)[0];
    }
  }

  lemma {:induction false} FlattenSectionsSound<T>(ds: DataSource<T>, k: int)
    requires k <= ds.numberOfSections
    ensures forall i :: 0 <= i < |FlattenSections(ds, k)| ==>
              ValidEntry(ds, FlattenSections(ds, k)[i]) && FlattenSections(ds, k)[i].section < k
  {
    if k > 0 {
      FlattenSectionsSound(ds, k - 1);
      SectionEntriesAt(ds, k - 1);
      var prefix := FlattenSections(ds, k - 1);
      var sec := SectionEntries(ds, k - 1);
      forall i | 0 <= i < |FlattenSections(ds, k)|
        ensures ValidEntry(ds, FlattenSections(ds, k)[i]) && FlattenSections(ds, k)[i].section < k
      {
        if i >= |prefix| {
          assert FlattenSections(ds, k)[i] == sec[i - |prefix|];
        }
      }
    }
  }

  /** Soundness: every entry of the flattened list is a header the data source
      asked for or a row in range wrapping the data source's item there. */
  lemma FlattenSound<T>(ds: DataSource<T>)
    ensures forall i :: 0 <= i < |Flatten(Some(ds))| ==> ValidEntry(ds, Flatten(Some(ds))[i])
  {
    FlattenSectionsSound(ds, ds.numberOfSections);
  }

  lemma SectionEntriesAt<T>(ds: DataSource<T>, s: int)
    ensures |SectionEntries(ds, s)| == SectionSize(ds, s)
    ensures forall i :: 0 <= i < |SectionEntries(ds, s)| ==>
              SectionEntries(ds, s)[i]
                == if i < HeaderCount(ds, s) then Header(s)
                   else Row(s, i - HeaderCount(ds, s), ds.getItem(IndexPath(s, i - HeaderCount(ds, s))))
  {
    var sec := SectionEntries(ds, s);
    var h := HeaderCount(ds, s);
    forall i | 0 <= i < |sec|
      ensures sec[i] == if i < h then Header(s) else Row(s, i - h, ds.getItem(IndexPath(s, i - h)))
    {
      if i >= h {
        assert sec[i] == RowEntries(ds, s)[i - h];
        assert RowEntries(ds, s)[i - h] == GetItemForRow(s, i - h, ds.getItem(MakeIndexPath(s, i - h)));
        assert sec[i] == Row(s, i - h, ds.getItem(IndexPath(s, i - h)));
      } else {
        assert ds.hasSectionHeader(s);
        assert sec[i] == GetItemForSectionHeader(s);
      }
    }
  }

  lemma SectionEntriesOrdered<T>(ds: DataSource<T>, s: int)
    ensures StrictlyOrdered(SectionEntries(ds, s))
    ensures forall i :: 0 <= i < |SectionEntries(ds, s)| ==> SectionEntries(ds, s)[i].section == s
  {
    SectionEntriesAt(ds, s);
  }

  lemma {:induction false} FlattenSectionsOrdered<T>(ds: DataSource<T>, k: int)
    ensures StrictlyOrdered(FlattenSections(ds, k))
    ensures forall i :: 0 <= i < |FlattenSections(ds, k)| ==> FlattenSections(ds, k)[i].section < k
  {
    if k > 0 {
      FlattenSectionsOrdered(ds, k - 1);
      SectionEntriesOrdered(ds, k - 1);
      var prefix := FlattenSections(ds, k - 1);
      var sec := SectionEntries(ds, k - 1);
      var all := FlattenSections(ds, k);
      assert all == prefix + sec;
      forall i, j | 0 <= i < j < |all|
        ensures Precedes(all[i], all[j])
      {
        if j < |prefix| {
          assert all[i] == prefix[i] && all[j] == prefix[j];
        } else if i < |prefix| {
          assert all[i] == prefix[i] && all[j] == sec[j - |prefix|];
        } else {
          assert all[i] == sec[i - |prefix|] && all[j] == sec[j - |prefix|];
        }
      }
      forall i | 0 <= i < |all|
        ensures all[i].section < k
      {
        if i >= |prefix| {
          assert all[i] == sec[i - |prefix|];
        }
      }
    }
  }

  /** Ordering: sections appear in ascending order, each one's header before its
      rows and its rows in ascending row order; hence no entry occurs twice. */
  lemma FlattenOrdered<T>(source: Option<DataSource<T>>)
    ensures StrictlyOrdered(Flatten(source))
    ensures forall i, j :: 0 <= i < |Flatten(source)| && 0 <= j < |Flatten(source)| && i != j ==>
              Flatten(source)[i] != Flatten(source)[j]
  {
    if source.Some? {
      FlattenSectionsOrdered(source.value, source.value.numberOfSections);
    }
    var flat := Flatten(source);
    forall i, j | 0 <= i < |flat| && 0 <= j < |flat| && i != j
      ensures flat[i] != flat[j]
    {
      if i < j {
        assert Precedes(flat[i], flat[j]);
      } else {
        assert Precedes(flat[j], flat[i]);
      }
    }
  }

  /** Two sections: section 0 has a header and rows "a1", "a2"; section 1 has
      no header and the row "b1". */
  function ExampleSource(): (r: DataSource<string>) {
    DataSource(
      2,
      s => s == 0,
      s => if s == 0 then "A" else "B",
      s => if s == 0 then 2 else if s == 1 then 1 else 0,
      p => if p == IndexPath(0, 0) then Some("a1")
           else if p == IndexPath(0, 1) then Some("a2")
           else if p == IndexPath(1, 0) then Some("b1")
           else None)
  }

  lemma {:induction false} FlattenExample()
    ensures Flatten(Some(ExampleSource()))
              == [Header(0), Row(0, 0, Some("a1")), Row(0, 1, Some("a2")), Row(1, 0, Some("b1"))]
  {
    var ds := ExampleSource();
    assert RowCount(ds, 0) == 2 && RowCount(ds, 1) == 1;
    assert ds.getItem(IndexPath(0, 0)) == Some("a1");
    assert ds.getItem(IndexPath(0, 1)) == Some("a2");
    assert ds.getItem(IndexPath(1, 0)) == Some("b1");
    assert |RowEntries(ds, 0)| == 2;
    assert RowEntries(ds, 0)[0] == GetItemForRow(0, 0, ds.getItem(MakeIndexPath(0, 0)));
    assert RowEntries(ds, 0)[1] == GetItemForRow(0, 1, ds.getItem(MakeIndexPath(0, 1)));
    assert RowEntries(ds, 0)[0] == Row(0, 0, Some("a1"));
    assert RowEntries(ds, 0)[1] == Row(0, 1, Some("a2"));
    assert |RowEntries(ds, 1)| == 1;
    assert RowEntries(ds, 1)[0] == GetItemForRow(1, 0, ds.getItem(MakeIndexPath(1, 0)));
    assert RowEntries(ds, 1)[0] == Row(1, 0, Some("b1"));
    assert RowEntries(ds, 0) == [Row(0, 0, Some("a1")), Row(0, 1, Some("a2"))];
    assert RowEntries(ds, 1) == [Row(1, 0, Some("b1"))];
    assert FlattenSections(ds, 1) == [Header(0), Row(0, 0, Some("a1")), Row(0, 1, Some("a2"))];
  }
}

=== FILE: index_path.dfy ===
/** The (section, row) locator of the sectioned list. */
module IndexPaths {

  /** The row index that marks a locator addressing a section header rather than a row. */
  const SectionHeaderRow: int := -1

  /** An immutable locator. Both fields are fixed at construction and no mutator
      exists, which a datatype value gives for free. */
  datatype IndexPath = IndexPath(section: int, row: int)

  /** The constructor performs no validation: any pair of ints, the header
      sentinel included, is accepted and read back unchanged. */
  function MakeIndexPath(section: int, row: int): (p: IndexPath)
    ensures p.section == section
    ensures p.row == row
  {
    IndexPath(section, row)
  }
}

=== FILE: list_item.dfy ===
/** The display entries of the flattened list: a section header or a row
    wrapping one raw item. */
module ListItems {
  import opened Optional
  import opened IndexPaths

  /** An entry of the flattened list. The Java class has a private constructor
      reached only through two factories, so every entry has one of these two
      shapes; a row's raw item may be null (`None`). */
  datatype Item<T> = Header(section: int) | Row(section: int, row: int, raw: Option<T>)
  {
    predicate IsHeaderItem() {
      Header?
    }

    /** The row index: the header sentinel for a header entry. */
    function RowIndex(): int {
      if Header? then SectionHeaderRow else row
    }

    /** The wrapped raw item: always null for a header entry. */
    function RawItem(): Option<T> {
      if Header? then None else raw
    }
  }

  /** The entry is its own index path, so the path reads back the entry's
      section and row index, the sentinel for a header. */
  function GetIndexPath<T>(e: Item<T>): (p: IndexPath)
    ensures p.section == e.section
    ensures p.row == e.RowIndex()
    ensures e.IsHeaderItem() <==> p.row == SectionHeaderRow && e == Header(p.section)
  {
    MakeIndexPath(e.section, e.RowIndex())
  }

  /** The header factory: a header entry for the section, with the sentinel row
      and a null raw item. */
  function GetItemForSectionHeader<T>(section: int): (e: Item<T>)
    ensures e.IsHeaderItem()
    ensures e.section == section
    ensures e.RowIndex() == SectionHeaderRow
    ensures e.RawItem() == None
  {
    Header(section)
  }

  /** The row factory: a non-header entry storing exactly the given section,
      row and raw item (no validation of the row index). */
  function GetItemForRow<T>(section: int, row: int, raw: Option<T>): (e: Item<T>)
    ensures !e.IsHeaderItem()
    ensures e.section == section
    ensures e.RowIndex() == row
    ensures e.RawItem() == raw
  {
    Row(section, row, raw)
  }

  /** Every entry is rebuilt by exactly one factory from its own accessors:
      it is a header exactly when the header factory produces it. */
  lemma FactoryOrigin<T>(e: Item<T>)
    ensures e.IsHeaderItem() <==> e == GetItemForSectionHeader(e.section)
    ensures !e.IsHeaderItem() <==> e == GetItemForRow(e.section, e.RowIndex(), e.RawItem())
  {
  }
}

=== FILE: optional.dfy ===
/** A nullable Java reference, as a value: `None` stands for `null`. */
module Optional {

  datatype Option<+T> = None | Some(value: T)
}

=== FILE: sectioned_list_view.dfy ===
/** The list view's reload: rebuild the flattened list from the data source,
    then re-project the kept selection list onto it. */
module SectionedListViews {
  import opened Optional
  import opened IndexPaths
  import opened ListItems
  import opened Flattening
  import opened Selection

  /** The reload loop: sections in ascending order, each one's header entry
      when it has one, then its rows. A missing data source has no sections,
      and a negative count runs no iteration. */
  method FlattenDataSource<T>(source: Option<DataSource<T>>) returns (items: seq<Item<T>>)
    ensures items == Flatten(source)
    ensures |items| == TotalSize(source)
  {
    items := [];
    var sections := NumberOfSections(source);
    if source.None? {
      FlattenLength(source);
      return;
    }
    var ds := source.value;
    var section := 0;
    while section < sections
      invariant 0 <= section
      invariant section <= sections || section == 0
      invariant items == FlattenSections(ds, section)
    {
      var start := items;
      if ds.hasSectionHeader(section) {
        items := items + [GetItemForSectionHeader(section)];
      }
      var headerPart := items;
      var rows := ds.numberOfRowsInSection(section);
      var row := 0;
      while row < rows
        invariant 0 <= row && (row <= rows || row == 0)
        invariant items == headerPart + RowEntries(ds, section)[..row]
      {
        var path := MakeIndexPath(section, row);
        items := items + [GetItemForRow(section, row, ds.getItem(path))];
        row := row + 1;
      }
      assert RowEntries(ds, section)[..row] == RowEntries(ds, section);
      assert items == start + SectionEntries(ds, section);
      section := section + 1;
    }
    FlattenLength(source);
  }

  /** The inner recovery loop: scan the current entries in order and stop at
      the first whose non-null raw item equals `raw`. */
  method FindFirstMatch<T(==)>(current: seq<Item<T>>, raw: Option<T>) returns (found: bool, j: nat)
    ensures found <==> FirstMatch(current, raw).Some?
    ensures found ==> FirstMatch(current, raw) == Some(j)
  {
    found := false;
    j := 0;
    while j < |current|
      invariant 0 <= j <= |current|
      invariant forall k :: 0 <= k < j ==> !SameRaw(current[k].RawItem(), raw)
    {
      if SameRaw(current[j].RawItem(), raw) {
        found := true;
        return;
      }
      j := j + 1;
    }
  }

  lemma RecoverStep<T>(selected: seq<Item<T>>, i: nat, current: seq<Item<T>>)
    requires i < |selected|
    ensures RecoverSelectionModel(selected[..i + 1], current)
              == RecoverSelectionModel(selected[..i], current)
                 + match FirstMatch(current, selected[i].RawItem())
                   case None => []
                   case Some(j) => [j]
  {
    assert selected[..i + 1][..i] == selected[..i];
    assert selected[..i + 1][i] == selected[i];
  }

  /** The recovery loop: for each selected entry, the index of the first
      current entry with an equal non-null raw item, if any. The host's
      `indexOf` of the matched entry object is that loop position, since a
      reload creates every entry object once. */
  method RecoverSelection<T(==)>(selected: seq<Item<T>>, current: seq<Item<T>>) returns (issued: seq<nat>)
    ensures issued == RecoverSelectionModel(selected, current)
  {
    issued := [];
    var i := 0;
    while i < |selected|
      invariant 0 <= i <= |selected|
      invariant issued == RecoverSelectionModel(selected[..i], current)
    {
      var found, j := FindFirstMatch(current, selected[i].RawItem());
      RecoverStep(selected, i, current);
      if found {
        issued := issued + [j];
      }
      i := i + 1;
    }
    assert selected[..i] == selected;
  }

  /** A whole reload: the installed list is the flattened data source and the
      indices selected in the host are the recovery of the selection list,
      which itself is left unchanged. Every selected raw item present in the
      new list gets highlighted, and only those. */
  method ReloadData<T(==)>(source: Option<DataSource<T>>, selected: seq<Item<T>>)
    returns (items: seq<Item<T>>, issued: seq<nat>)
    ensures items == Flatten(source)
    ensures issued == RecoverSelectionModel(selected, items)
    ensures forall k :: 0 <= k < |issued| ==> issued[k] < |items| && !items[issued[k]].IsHeaderItem()
    ensures forall x :: x in RawSet(selected) && x in RawSet(items) ==> Highlights(items, issued, x)
  {
    items := FlattenDataSource(source);
    issued := RecoverSelection(selected, items);
    forall x | x in RawSet(selected) && x in RawSet(items)
      ensures Highlights(items, issued, x)
    {
      RecoveryHighlightsPresentSelection(selected, items, x);
    }
  }
}

=== FILE: selection.dfy ===
/** The list of selected entries kept by the list view, the click toggle that
    edits it, its re-projection onto a freshly flattened list, and the raw-item
    queries over the host selection. */
module Selection {
  import opened Optional
  import opened ListItems

  /** The source's `a != null && a.equals(b)` on raw items, with `equals`
      taken as value equality. */
  predicate SameRaw<T(==)>(receiver: Option<T>, other: Option<T>) {
    receiver.Some? && receiver == other
  }

  /** The position of the first entry whose non-null raw item equals `raw`. */
  function FirstMatch<T(==)>(entries: seq<Item<T>>, raw: Option<T>): (r: Option<nat>)
    ensures r.Some? ==> r.value < |entries| && SameRaw(entries[r.value].RawItem(), raw)
    ensures r.Some? ==> forall j :: 0 <= j < r.value ==> !SameRaw(entries[j].RawItem(), raw)
    ensures r.None? <==> forall j :: 0 <= j < |entries| ==> !SameRaw(entries[j].RawItem(), raw)
  {
    if |entries| == 0 then None
    else if SameRaw(entries[0].RawItem(), raw) then Some(0)
    else match FirstMatch(entries[1..], raw)
      case None => None
      case Some(j) => Some(j + 1)
  }

  predicate NoHeaders<T>(entries: seq<Item<T>>) {
    forall i :: 0 <= i < |entries| ==> !entries[i].IsHeaderItem()
  }

  /** No two entries carry equal non-null raw items. */
  predicate UniqueRaws<T(==)>(entries: seq<Item<T>>) {
    forall i, j :: 0 <= i < j < |entries| ==> !SameRaw(entries[i].RawItem(), entries[j].RawItem())
  }

  /** Dropping the last element of a concatenation with a non-empty right part
      drops it from the right part. */
  lemma SplitLast<X>(a: seq<X>, b: seq<X>)
    requires |b| > 0
    ensures (a + b)[..|a + b| - 1] == a + b[..|b| - 1]
    ensures (a + b)[|a + b| - 1] == b[|b| - 1]
  {
  }

  /** The non-null raw items the entries carry. */
  function RawSet<T>(entries: seq<Item<T>>): (r: set<T>) {
    set i | 0 <= i < |entries| && entries[i].RawItem().Some? :: entries[i].RawItem().value
  }

  /** `r` is `s` with the element at position `i` taken out. */
  ghost predicate RemovedAt<X>(s: seq<X>, i: nat, r: seq<X>) {
    && i < |s|
    && |r| == |s| - 1
    && (forall k :: 0 <= k < i ==> r[k] == s[k])
    && (forall k :: i <= k < |r| ==> r[k] == s[k + 1])
  }

  /** A click on a list cell. An empty cell or a header leaves the selection
      alone. Otherwise the first selected entry carrying the clicked raw item
      is removed, or, when there is none, the clicked entry is appended. */
  function UpdateSelectedItemsOnClick<T(==)>(selected: seq<Item<T>>, clicked: Option<Item<T>>): (r: seq<Item<T>>)
    ensures clicked.None? || clicked.value.IsHeaderItem() ==> r == selected
    ensures clicked.Some? && !clicked.value.IsHeaderItem() ==>
              match FirstMatch(selected, clicked.value.RawItem())
              case Some(i) => RemovedAt(selected, i, r)
              case None => r == selected + [clicked.value]
    ensures NoHeaders(selected) ==> NoHeaders(r)
    ensures UniqueRaws(selected) ==> UniqueRaws(r)
  {
    if clicked.None? || clicked.value.IsHeaderItem() then selected
    else match FirstMatch(selected, clicked.value.RawItem())
      case Some(i) => selected[..i] + selected[i + 1..]
      case None => selected + [clicked.value]
  }

  lemma RawSetRemoved<T>(s: seq<Item<T>>, i: nat, r: seq<Item<T>>, x: T)
    requires RemovedAt(s, i, r)
    requires s[i].RawItem() == Some(x)
    requires forall k :: 0 <= k < |s| && k != i ==> s[k].RawItem() != Some(x)
    ensures RawSet(r) == RawSet(s) - {x}
  {
    forall y | y in RawSet(r)
      ensures y in RawSet(s) - {x}
    {
      var k :| 0 <= k < |r| && r[k].RawItem().Some? && r[k].RawItem().value == y;
      if k < i {
        assert r[k] == s[k];
      } else {
        assert r[k] == s[k + 1];
      }
    }
    forall y | y in RawSet(s) - {x}
      ensures y in RawSet(r)
    {
      var k :| 0 <= k < |s| && s[k].RawItem().Some? && s[k].RawItem().value == y;
      if k < i {
        assert r[k] == s[k];
      } else {
        assert k != i;
        assert r[k - 1] == s[k];
      }
    }
  }

  lemma RawSetAppend<T>(s: seq<Item<T>>, e: Item<T>)
    ensures RawSet(s + [e]) == RawSet(s) + (if e.RawItem().Some? then {e.RawItem().value} else {})
  {
    var t := s + [e];
    forall y | y in RawSet(t)
      ensures y in RawSet(s) + (if e.RawItem().Some? then {e.RawItem().value} else {})
    {
      var k :| 0 <= k < |t| && t[k].RawItem().Some? && t[k].RawItem().value == y;
      if k < |s| {
        assert t[k] == s[k];
      }
    }
    forall y | y in RawSet(s)
      ensures y in RawSet(t)
    {
      var k :| 0 <= k < |s| && s[k].RawItem().Some? && s[k].RawItem().value == y;
      assert t[k] == s[k];
    }
    if e.RawItem().Some? {
      assert t[|s|] == e;
    }
  }

  /** A click on a row whose raw item x is non-null flips x's membership in
      the set of selected raw items, when no raw item is selected twice. */
  lemma ClickFlipsMembership<T>(selected: seq<Item<T>>, clicked: Item<T>, x: T)
    requires UniqueRaws(selected)
    requires !clicked.IsHeaderItem() && clicked.RawItem() == Some(x)
    ensures RawSet(UpdateSelectedItemsOnClick(selected, Some(clicked)))
              == if x in RawSet(selected) then RawSet(selected) - {x} else RawSet(selected) + {x}
  {
    var r := UpdateSelectedItemsOnClick(selected, Some(clicked));
    match FirstMatch(selected, Some(x))
    case Some(i) =>
      assert x in RawSet(selected);
      forall k | 0 <= k < |selected| && k != i
        ensures selected[k].RawItem() != Some(x)
      {
        if k < i {
        } else {
          assert !SameRaw(selected[i].RawItem(), selected[k].RawItem());
        }
      }
      RawSetRemoved(selected, i, r, x);
    case None =>
      assert x !in RawSet(selected);
      RawSetAppend(selected, clicked);
  }

  /** A click on a row with a null raw item never matches a selected entry,
      so it always appends. */
  lemma ClickOnNullRawAppends<T>(selected: seq<Item<T>>, clicked: Item<T>)
    requires !clicked.IsHeaderItem() && clicked.RawItem().None?
    ensures UpdateSelectedItemsOnClick(selected, Some(clicked)) == selected + [clicked]
  {
  }

  lemma NoMatchOutsideRawSet<T>(entries: seq<Item<T>>, x: T)
    requires x !in RawSet(entries)
    ensures FirstMatch(entries, Some(x)).None?
  {
    forall j | 0 <= j < |entries|
      ensures !SameRaw(entries[j].RawItem(), Some(x))
    {
      if entries[j].RawItem().Some? {
        assert entries[j].RawItem().value in RawSet(entries);
      }
    }
  }

  /** Two clicks on a row whose non-null raw item is not selected give back
      the original selection list exactly. */
  lemma ClickTwiceRestores<T>(selected: seq<Item<T>>, clicked: Item<T>)
    requires !clicked.IsHeaderItem() && clicked.RawItem().Some?
    requires clicked.RawItem().value !in RawSet(selected)
    ensures UpdateSelectedItemsOnClick(UpdateSelectedItemsOnClick(selected, Some(clicked)), Some(clicked)) == selected
  {
    var raw := clicked.RawItem();
    NoMatchOutsideRawSet(selected, raw.value);
    var once := UpdateSelectedItemsOnClick(selected, Some(clicked));
    assert once == selected + [clicked];
    assert FirstMatch(once, raw) == Some(|selected|) by {
      assert SameRaw(once[|selected|].RawItem(), raw);
      var f := FirstMatch(once, raw);
      assert f.Some?;
    }
    assert once[..|selected|] + once[|selected| + 1..] == selected;
  }

  /** Two clicks on the same row with a non-null raw item restore the set of
      selected raw items (the entry may come back at the end of the list). */
  lemma ClickTwiceRestoresMembership<T>(selected: seq<Item<T>>, clicked: Item<T>)
    requires UniqueRaws(selected)
    requires !clicked.IsHeaderItem() && clicked.RawItem().Some?
    ensures RawSet(UpdateSelectedItemsOnClick(UpdateSelectedItemsOnClick(selected, Some(clicked)), Some(clicked)))
              == RawSet(selected)
  {
    var x := clicked.RawItem().value;
    var once := UpdateSelectedItemsOnClick(selected, Some(clicked));
    ClickFlipsMembership(selected, clicked, x);
    ClickFlipsMembership(once, clicked, x);
  }

  /** The results of `f` on each element of `s`, concatenated in order. */
  function Concatenated<X, Y>(s: seq<X>, f: X -> seq<Y>): (r: seq<Y>) {
    if |s| == 0 then [] else Concatenated(s[..|s| - 1], f) + f(s[|s| - 1])
  }

  lemma {:induction false} ConcatenatedConcat<X, Y>(a: seq<X>, b: seq<X>, f: X -> seq<Y>)
    ensures Concatenated(a + b, f) == Concatenated(a, f) + Concatenated(b, f)
    decreases |b|
  {
    if |b| == 0 {
      assert a + b == a;
    } else {
      SplitLast(a, b);
      ConcatenatedConcat(a, b[..|b| - 1], f);
    }
  }

  /** The indices the recovery after a reload passes to the host selection
      model, in order: for each selected entry, the first current entry with
      an equal non-null raw item; an unmatched selected entry issues nothing
      and stays in the selection list. */
  function RecoverSelectionModel<T(==)>(selected: seq<Item<T>>, current: seq<Item<T>>): (r: seq<nat>)
    ensures |r| <= |selected|
    ensures forall k :: 0 <= k < |r| ==>
              && r[k] < |current|
              && !current[r[k]].IsHeaderItem()
              && current[r[k]].RawItem().Some?
              && current[r[k]].RawItem().value in RawSet(selected)
              && forall j :: 0 <= j < r[k] ==> current[j].RawItem() != current[r[k]].RawItem()
    ensures forall i :: 0 <= i < |selected| && FirstMatch(current, selected[i].RawItem()).Some? ==>
              FirstMatch(current, selected[i].RawItem()).value in r
  {
    if |selected| == 0 then []
    else
      var last := selected[|selected| - 1];
      var prefix := selected[..|selected| - 1];
      var earlier := RecoverSelectionModel(prefix, current);
      assert forall i :: 0 <= i < |prefix| ==> prefix[i] == selected[i];
      assert RawSet(prefix) <= RawSet(selected) by {
        forall y | y in RawSet(prefix) ensures y in RawSet(selected) {
          var k :| 0 <= k < |prefix| && prefix[k].RawItem().Some? && prefix[k].RawItem().value == y;
          assert selected[k] == prefix[k];
        }
      }
      match FirstMatch(current, last.RawItem())
      case None => earlier
      case Some(j) =>
        assert last.RawItem().value in RawSet(selected) by {
          assert selected[|selected| - 1] == last;
        }
        earlier + [j]
  }

  /** The index one selected entry issues: the first current position
      carrying its raw item, or nothing. */
  function IssuedFor<T(==)>(current: seq<Item<T>>): (f: Item<T> -> seq<nat>) {
    (e: Item<T>) => match FirstMatch(current, e.RawItem()) case None => [] case Some(j) => [j]
  }

  lemma {:induction false} RecoverSelectionModelIsConcatenated<T>(selected: seq<Item<T>>, current: seq<Item<T>>)
    ensures RecoverSelectionModel(selected, current) == Concatenated(selected, IssuedFor(current))
    decreases |selected|
  {
    if |selected| > 0 {
      RecoverSelectionModelIsConcatenated(selected[..|selected| - 1], current);
    }
  }

  /** Recovery runs over the selection list in order: the indices issued for
      a concatenation are those for each part in turn. */
  lemma RecoverSelectionModelConcat<T>(a: seq<Item<T>>, b: seq<Item<T>>, current: seq<Item<T>>)
    ensures RecoverSelectionModel(a + b, current) == RecoverSelectionModel(a, current) + RecoverSelectionModel(b, current)
  {
    RecoverSelectionModelIsConcatenated(a + b, current);
    RecoverSelectionModelIsConcatenated(a, current);
    RecoverSelectionModelIsConcatenated(b, current);
    ConcatenatedConcat(a, b, IssuedFor(current));
  }

  /** One selected entry issues the first current position carrying its raw
      item, or nothing when no current entry carries it. */
  lemma RecoverSelectionModelSingle<T>(e: Item<T>, current: seq<Item<T>>)
    ensures RecoverSelectionModel([e], current)
              == match FirstMatch(current, e.RawItem()) case None => [] case Some(j) => [j]
  {
    assert [e][..0] == [];
  }

  /** Some issued index points at a current entry carrying raw item x. */
  ghost predicate Highlights<T>(current: seq<Item<T>>, issued: seq<nat>, x: T) {
    exists k :: 0 <= k < |issued| && issued[k] < |current| && current[issued[k]].RawItem() == Some(x)
  }

  /** Recovery highlights exactly the raw items that are both selected and
      present in the new list: a selected raw item present in the new list
      has a position issued, and every issued position carries a selected
      raw item. */
  lemma RecoveryHighlightsPresentSelection<T>(selected: seq<Item<T>>, current: seq<Item<T>>, x: T)
    ensures Highlights(current, RecoverSelectionModel(selected, current), x) <==>
              x in RawSet(selected) && x in RawSet(current)
  {
    var r := RecoverSelectionModel(selected, current);
    if x in RawSet(selected) && x in RawSet(current) {
      var i :| 0 <= i < |selected| && selected[i].RawItem().Some? && selected[i].RawItem().value == x;
      var c :| 0 <= c < |current| && current[c].RawItem().Some? && current[c].RawItem().value == x;
      assert SameRaw(current[c].RawItem(), selected[i].RawItem());
      var m := FirstMatch(current, selected[i].RawItem());
      assert m.Some? && m.value in r;
      var k :| 0 <= k < |r| && r[k] == m.value;
      assert r[k] < |current| && current[r[k]].RawItem() == Some(x);
    }
    if Highlights(current, r, x) {
      var k :| 0 <= k < |r| && r[k] < |current| && current[r[k]].RawItem() == Some(x);
      assert x in RawSet(current);
    }
  }

  /** Every current entry whose non-null raw item equals the given one, in
      list order. */
  function AllMatches<T(==)>(raw: Option<T>, current: seq<Item<T>>): (r: seq<Item<T>>) {
    if |current| == 0 then []
    else AllMatches(raw, current[..|current| - 1])
           + (if SameRaw(raw, current[|current| - 1].RawItem()) then [current[|current| - 1]] else [])
  }

  /** The matches are current entries carrying the given non-null raw item,
      and every such entry is among them, not only the first. */
  lemma {:induction false} AllMatchesSound<T>(raw: Option<T>, current: seq<Item<T>>)
    ensures var r := AllMatches(raw, current);
            && |r| <= |current|
            && (forall k :: 0 <= k < |r| ==> r[k] in current && SameRaw(raw, r[k].RawItem()))
            && (forall j :: 0 <= j < |current| && SameRaw(raw, current[j].RawItem()) ==> current[j] in r)
    decreases |current|
  {
    if |current| > 0 {
      var last := current[|current| - 1];
      var prefix := current[..|current| - 1];
      AllMatchesSound(raw, prefix);
      assert current == prefix + [last];
    }
  }

  /** The matches are collected in list order, once each: the matches in a
      concatenation are the parts' matches in turn. */
  lemma {:induction false} AllMatchesConcat<T>(raw: Option<T>, a: seq<Item<T>>, b: seq<Item<T>>)
    ensures AllMatches(raw, a + b) == AllMatches(raw, a) + AllMatches(raw, b)
    decreases |b|
  {
    if |b| == 0 {
      assert a + b == a;
    } else {
      SplitLast(a, b);
      AllMatchesConcat(raw, a, b[..|b| - 1]);
    }
  }

  /** One entry is a match exactly when its non-null raw item equals the
      given one. */
  lemma AllMatchesSingle<T>(raw: Option<T>, e: Item<T>)
    ensures AllMatches(raw, [e]) == if SameRaw(raw, e.RawItem()) then [e] else []
  {
    assert [e][..0] == [];
  }

  /** The matches of a selected entry among the current entries. */
  function MatchesOf<T(==)>(current: seq<Item<T>>): (f: Item<T> -> seq<Item<T>>) {
    (e: Item<T>) => AllMatches(e.RawItem(), current)
  }

  /** The selection list rebuilt against the current entries: for each
      selected entry in order, all current entries with an equal non-null raw
      item, not only the first. */
  function UpdateSelectedItemsList<T(==)>(selected: seq<Item<T>>, current: seq<Item<T>>): (r: seq<Item<T>>) {
    Concatenated(selected, MatchesOf(current))
  }

  /** The rebuilt list holds exactly the current entries whose non-null raw
      item is selected, and no header. */
  lemma {:induction false} UpdateSelectedItemsListSound<T>(selected: seq<Item<T>>, current: seq<Item<T>>)
    ensures var r := UpdateSelectedItemsList(selected, current);
            && (forall k :: 0 <= k < |r| ==>
                  r[k] in current && r[k].RawItem().Some? && r[k].RawItem().value in RawSet(selected))
            && (forall j :: (0 <= j < |current| && current[j].RawItem().Some?
                             && current[j].RawItem().value in RawSet(selected)) ==> current[j] in r)
            && NoHeaders(r)
    decreases |selected|
  {
    if |selected| > 0 {
      var last := selected[|selected| - 1];
      var prefix := selected[..|selected| - 1];
      UpdateSelectedItemsListSound(prefix, current);
      AllMatchesSound(last.RawItem(), current);
      assert selected == prefix + [last];
      UpdateSelectedItemsListSnoc(prefix, last, current);
      RawSetAppend(prefix, last);
      var r := UpdateSelectedItemsList(selected, current);
      assert forall i :: 0 <= i < |r| ==> r[i] in r;
    }
  }

  /** Appending a selected entry appends that entry's matches to the rebuild. */
  lemma UpdateSelectedItemsListSnoc<T>(selected: seq<Item<T>>, e: Item<T>, current: seq<Item<T>>)
    ensures UpdateSelectedItemsList(selected + [e], current)
              == UpdateSelectedItemsList(selected, current) + AllMatches(e.RawItem(), current)
  {
    assert (selected + [e])[..|selected|] == selected;
  }

  /** The rebuilt list is assembled entry by entry, in selection-list order:
      a concatenation rebuilds to the parts' rebuilds in turn. */
  lemma UpdateSelectedItemsListConcat<T>(a: seq<Item<T>>, b: seq<Item<T>>, current: seq<Item<T>>)
    ensures UpdateSelectedItemsList(a + b, current) == UpdateSelectedItemsList(a, current) + UpdateSelectedItemsList(b, current)
  {
    ConcatenatedConcat(a, b, MatchesOf(current));
  }

  /** One selected entry rebuilds to all current entries matching its raw
      item, in list order. */
  lemma UpdateSelectedItemsListSingle<T>(e: Item<T>, current: seq<Item<T>>)
    ensures UpdateSelectedItemsList([e], current) == AllMatches(e.RawItem(), current)
  {
    UpdateSelectedItemsListSnoc([], e, current);
    assert [] + [e] == [e];
  }

  /** A slot of the host selection (possibly null) that holds a row entry. */
  predicate IsRowSlot<T>(slot: Option<Item<T>>) {
    slot.Some? && !slot.value.IsHeaderItem()
  }

  /** Some row slot of the host selection carries raw item x. */
  ghost predicate FromRowSlot<T>(hostSelection: seq<Option<Item<T>>>, x: Option<T>) {
    exists i :: 0 <= i < |hostSelection| && IsRowSlot(hostSelection[i]) && hostSelection[i].value.RawItem() == x
  }

  /** The raw items of the host selection model's selected entries, in
      order, skipping null slots and headers. */
  function GetSelectedRawItems<T>(hostSelection: seq<Option<Item<T>>>): (r: seq<Option<T>>)
    ensures |r| <= |hostSelection|
    ensures forall k :: 0 <= k < |r| ==> FromRowSlot(hostSelection, r[k])
    ensures forall i :: 0 <= i < |hostSelection| && IsRowSlot(hostSelection[i]) ==>
              hostSelection[i].value.RawItem() in r
  {
    if |hostSelection| == 0 then []
    else
      var last := hostSelection[|hostSelection| - 1];
      var prefix := hostSelection[..|hostSelection| - 1];
      var earlier := GetSelectedRawItems(prefix);
      var r := earlier + (if IsRowSlot(last) then [last.value.RawItem()] else []);
      assert forall i :: 0 <= i < |prefix| ==> prefix[i] == hostSelection[i];
      assert forall k :: 0 <= k < |earlier| ==> FromRowSlot(hostSelection, earlier[k]) by {
        forall k | 0 <= k < |earlier|
          ensures FromRowSlot(hostSelection, earlier[k])
        {
          assert FromRowSlot(prefix, earlier[k]);
          var i :| 0 <= i < |prefix| && IsRowSlot(prefix[i]) && prefix[i].value.RawItem() == earlier[k];
          assert hostSelection[i] == prefix[i];
        }
      }
      assert IsRowSlot(last) ==> FromRowSlot(hostSelection, last.value.RawItem()) by {
        assert hostSelection[|hostSelection| - 1] == last;
      }
      r
  }

  /** The query reads the host selection slot by slot, in order: a
      concatenation gives the parts' results in turn. */
  lemma {:induction false} GetSelectedRawItemsConcat<T>(a: seq<Option<Item<T>>>, b: seq<Option<Item<T>>>)
    ensures GetSelectedRawItems(a + b) == GetSelectedRawItems(a) + GetSelectedRawItems(b)
    decreases |b|
  {
    if |b| == 0 {
      assert a + b == a;
    } else {
      SplitLast(a, b);
      GetSelectedRawItemsConcat(a, b[..|b| - 1]);
    }
  }

  /** One slot gives its entry's raw item when it holds a row, and nothing
      when it is null or holds a header. */
  lemma GetSelectedRawItemsSingle<T>(slot: Option<Item<T>>)
    ensures GetSelectedRawItems([slot]) == if IsRowSlot(slot) then [slot.value.RawItem()] else []
  {
    assert [slot][..0] == [];
  }

  /** Some row entry of the list carries raw item x. */
  ghost predicate FromRow<T>(entries: seq<Item<T>>, x: Option<T>) {
    exists i :: 0 <= i < |entries| && !entries[i].IsHeaderItem() && entries[i].RawItem() == x
  }

  /** The raw items of the row entries of a list, in order. */
  function RowRaws<T>(entries: seq<Item<T>>): (r: seq<Option<T>>)
    ensures |r| <= |entries|
    ensures forall k :: 0 <= k < |r| ==> FromRow(entries, r[k])
    ensures forall i :: 0 <= i < |entries| && !entries[i].IsHeaderItem() ==> entries[i].RawItem() in r
  {
    if |entries| == 0 then []
    else
      var last := entries[|entries| - 1];
      var prefix := entries[..|entries| - 1];
      var earlier := RowRaws(prefix);
      assert forall i :: 0 <= i < |prefix| ==> prefix[i] == entries[i];
      assert forall k :: 0 <= k < |earlier| ==> FromRow(entries, earlier[k]) by {
        forall k | 0 <= k < |earlier|
          ensures FromRow(entries, earlier[k])
        {
          assert FromRow(prefix, earlier[k]);
          var i :| 0 <= i < |prefix| && !prefix[i].IsHeaderItem() && prefix[i].RawItem() == earlier[k];
          assert entries[i] == prefix[i];
        }
      }
      assert !last.IsHeaderItem() ==> FromRow(entries, last.RawItem()) by {
        assert entries[|entries| - 1] == last;
      }
      earlier + (if last.IsHeaderItem() then [] else [last.RawItem()])
  }

  /** The rows' raw items are collected in list order: a concatenation gives
      the parts' results in turn. */
  lemma {:induction false} RowRawsConcat<T>(a: seq<Item<T>>, b: seq<Item<T>>)
    ensures RowRaws(a + b) == RowRaws(a) + RowRaws(b)
    decreases |b|
  {
    if |b| == 0 {
      assert a + b == a;
    } else {
      SplitLast(a, b);
      RowRawsConcat(a, b[..|b| - 1]);
    }
  }

  /** One entry gives its raw item when it is a row and nothing when it is a
      header. */
  lemma RowRawsSingle<T>(e: Item<T>)
    ensures RowRaws([e]) == if e.IsHeaderItem() then [] else [e.RawItem()]
  {
    assert [e][..0] == [];
  }

  /** The list `contains` the source performs when filtering: true when the
      probed entry equals some element under the given equality. */
  predicate ContainsWrapper<T>(raws: seq<Option<T>>, entry: Item<T>, wrapperEquals: (Item<T>, Option<T>) -> bool) {
    exists i :: 0 <= i < |raws| && wrapperEquals(entry, raws[i])
  }

  /** The non-selected query as written: the row entries of the current list
      whose WRAPPER (not raw item) is contained in the list of selected raw
      items, compared with the wrapper's `equals`. */
  function GetNonSelectedRawItemsAsWritten<T>(current: seq<Item<T>>, hostSelection: seq<Option<Item<T>>>,
                                               wrapperEquals: (Item<T>, Option<T>) -> bool): (r: seq<Option<T>>)
    ensures |r| <= |current|
    ensures forall k :: 0 <= k < |r| ==> r[k] in RowRaws(current)
  {
    KeepUnlistedWrappers(current, GetSelectedRawItems(hostSelection), wrapperEquals)
  }

  function KeepUnlistedWrappers<T>(current: seq<Item<T>>, selectedRaws: seq<Option<T>>,
                                   wrapperEquals: (Item<T>, Option<T>) -> bool): (r: seq<Option<T>>)
    ensures |r| <= |current|
    ensures forall k :: 0 <= k < |r| ==> r[k] in RowRaws(current)
    ensures (forall i :: 0 <= i < |current| ==> !ContainsWrapper(selectedRaws, current[i], wrapperEquals))
              ==> r == RowRaws(current)
  {
    if |current| == 0 then []
    else
      var last := current[|current| - 1];
      var prefix := current[..|current| - 1];
      assert forall i :: 0 <= i < |prefix| ==> prefix[i] == current[i];
      KeepUnlistedWrappers(prefix, selectedRaws, wrapperEquals)
        + (if !last.IsHeaderItem() && !ContainsWrapper(selectedRaws, last, wrapperEquals)
           then [last.RawItem()] else [])
  }

  /** The entry class does not override `equals`, so a wrapper equals only
      itself and never a raw item taken from the data source. */
  function IdentityEquals<T>(entry: Item<T>, raw: Option<T>): (r: bool) {
    false
  }

  /** As written, the non-selected query filters nothing out: it returns the
      raw item of every row, the selected ones included. */
  lemma NonSelectedAsWrittenKeepsAllRows<T>(current: seq<Item<T>>, hostSelection: seq<Option<Item<T>>>)
    ensures GetNonSelectedRawItemsAsWritten(current, hostSelection, IdentityEquals) == RowRaws(current)
  {
  }

  /** A concrete case: one row carrying 1, selected in the host, is still
      reported as non-selected. */
  lemma NonSelectedAsWrittenCounterexample()
    ensures var current: seq<Item<int>> := [Row(0, 0, Some(1))];
            && Some(1) in GetSelectedRawItems([Some(Row(0, 0, Some(1)))])
            && GetNonSelectedRawItemsAsWritten(current, [Some(Row(0, 0, Some(1)))], IdentityEquals) == [Some(1)]
  {
    NonSelectedAsWrittenKeepsAllRows([Row(0, 0, Some(1))], [Some(Row(0, 0, Some(1)))]);
    assert RowRaws([Row(0, 0, Some(1))]) == [Some(1)] by {
      assert [Row(0, 0, Some(1))][..0] == [];
    }
  }

  /** The non-selected query as intended: the raw items of the row entries of
      the current list that are not among the selected raw items, in order. */
  function GetNonSelectedRawItems<T(==)>(current: seq<Item<T>>, hostSelection: seq<Option<Item<T>>>): (r: seq<Option<T>>)
    ensures |r| <= |current|
    ensures forall k :: 0 <= k < |r| ==> r[k] in RowRaws(current) && r[k] !in GetSelectedRawItems(hostSelection)
    ensures forall i :: (0 <= i < |current| && !current[i].IsHeaderItem()
                         && current[i].RawItem() !in GetSelectedRawItems(hostSelection)) ==> current[i].RawItem() in r
  {
    KeepUnselectedRaws(current, GetSelectedRawItems(hostSelection))
  }

  function KeepUnselectedRaws<T(==)>(current: seq<Item<T>>, selectedRaws: seq<Option<T>>): (r: seq<Option<T>>)
    ensures |r| <= |current|
    ensures forall k :: 0 <= k < |r| ==> r[k] in RowRaws(current) && r[k] !in selectedRaws
    ensures forall i :: 0 <= i < |current| && !current[i].IsHeaderItem() && current[i].RawItem() !in selectedRaws ==>
              current[i].RawItem() in r
  {
    if |current| == 0 then []
    else
      var last := current[|current| - 1];
      var prefix := current[..|current| - 1];
      assert RowRaws(current) == RowRaws(prefix) + (if last.IsHeaderItem() then [] else [last.RawItem()]);
      KeepUnselectedRaws(prefix, selectedRaws)
        + (if !last.IsHeaderItem() && last.RawItem() !in selectedRaws then [last.RawItem()] else [])
  }

  /** The corrected query filters the current list in list order: a
      concatenation gives the parts' results in turn. */
  lemma {:induction false} GetNonSelectedRawItemsConcat<T>(a: seq<Item<T>>, b: seq<Item<T>>,
                                                          hostSelection: seq<Option<Item<T>>>)
    ensures GetNonSelectedRawItems(a + b, hostSelection)
              == GetNonSelectedRawItems(a, hostSelection) + GetNonSelectedRawItems(b, hostSelection)
    decreases |b|
  {
    if |b| == 0 {
      assert a + b == a;
    } else {
      SplitLast(a, b);
      GetNonSelectedRawItemsConcat(a, b[..|b| - 1], hostSelection);
    }
  }

  /** One entry gives its raw item exactly when it is a row whose raw item is
      not selected. */
  lemma GetNonSelectedRawItemsSingle<T>(e: Item<T>, hostSelection: seq<Option<Item<T>>>)
    ensures GetNonSelectedRawItems([e], hostSelection)
              == if !e.IsHeaderItem() && e.RawItem() !in GetSelectedRawItems(hostSelection) then [e.RawItem()] else []
  {
    assert [e][..0] == [];
  }

  /** Selected and non-selected raw items partition the rows' raw items. */
  lemma SelectedAndNonSelectedPartitionRows<T>(current: seq<Item<T>>, hostSelection: seq<Option<Item<T>>>, x: Option<T>)
    requires x in RowRaws(current)
    ensures x in GetSelectedRawItems(hostSelection) <==> x !in GetNonSelectedRawItems(current, hostSelection)
  {
  }
}

=== FILE: view_pool.dfy ===
/** The pool of reusable row and header views. A pooled view is free exactly
    when its live parent link is null; the pool keeps no attachment state of
    its own and never evicts a view. */
module ViewPools {
  import opened Optional

  /** A visual node created by the cell factory. */
  type NodeId = nat
  /** A node's parent in the scene graph. */
  type ParentId = nat

  /** A snapshot of every node's live parent link, read when the pool is probed. */
  type ParentLinks = NodeId -> Option<ParentId>

  predicate IsFree(parent: ParentLinks, node: NodeId) {
    parent(node).None?
  }

  /** Row views keyed by the kind of raw item they display (the raw item's
      runtime class), in enqueue order, plus the list of header views. */
  datatype Pool<K> = Pool(cells: map<K, seq<NodeId>>, headers: seq<NodeId>)

  /** The position of the first free node of the list, if any. */
  function FirstFreeIndex(nodes: seq<NodeId>, parent: ParentLinks): (r: Option<nat>)
    ensures r.Some? ==> r.value < |nodes| && IsFree(parent, nodes[r.value])
    ensures r.Some? ==> forall j :: 0 <= j < r.value ==> !IsFree(parent, nodes[j])
    ensures r.None? ==> forall j :: 0 <= j < |nodes| ==> !IsFree(parent, nodes[j])
  {
    if |nodes| == 0 then None
    else if IsFree(parent, nodes[0]) then Some(0)
    else match FirstFreeIndex(nodes[1..], parent)
      case None => None
      case Some(j) => Some(j + 1)
  }

  /** The first free node of the list in enqueue order, if any. */
  function FirstFree(nodes: seq<NodeId>, parent: ParentLinks): (r: Option<NodeId>)
    ensures r.Some? ==> r.value in nodes && IsFree(parent, r.value)
    ensures r.Some? ==> exists i :: 0 <= i < |nodes| && nodes[i] == r.value
                          && forall j :: 0 <= j < i ==> !IsFree(parent, nodes[j])
    ensures r.None? <==> forall n :: n in nodes ==> !IsFree(parent, n)
  {
    match FirstFreeIndex(nodes, parent)
    case None => None
    case Some(i) => Some(nodes[i])
  }

  /** The row views pooled for a kind: empty when the kind was never enqueued. */
  function CellsOfKind<K>(pool: Pool<K>, kind: K): (r: seq<NodeId>) {
    if kind in pool.cells then pool.cells[kind] else []
  }

  /** Appends the view to the list of its item's kind, creating the list when
      absent. Nothing is filtered, so enqueueing a pooled view again
      duplicates it; every other list is left as it was. */
  function EnqueueReusableCell<T, K>(pool: Pool<K>, kindOf: T -> K, item: T, cell: NodeId): (r: Pool<K>)
    ensures kindOf(item) in r.cells
    ensures r.cells[kindOf(item)] == CellsOfKind(pool, kindOf(item)) + [cell]
    ensures r.cells.Keys == pool.cells.Keys + {kindOf(item)}
    ensures forall k :: k in pool.cells && k != kindOf(item) ==> r.cells[k] == pool.cells[k]
    ensures r.headers == pool.headers
  {
    pool.(cells := pool.cells[kindOf(item) := CellsOfKind(pool, kindOf(item)) + [cell]])
  }

  /** A free view of the item's kind: none when the kind was never enqueued,
      otherwise the first view in enqueue order whose parent link is null.
      An attached view is never handed out. */
  function DequeueReusableCell<T, K>(pool: Pool<K>, parent: ParentLinks, kindOf: T -> K, item: T): (r: Option<NodeId>)
    ensures kindOf(item) !in pool.cells ==> r.None?
    ensures r.Some? ==> r.value in pool.cells[kindOf(item)] && IsFree(parent, r.value)
    ensures r.Some? ==> exists i :: 0 <= i < |pool.cells[kindOf(item)]| && pool.cells[kindOf(item)][i] == r.value
                          && forall j :: 0 <= j < i ==> !IsFree(parent, pool.cells[kindOf(item)][j])
    ensures r.None? && kindOf(item) in pool.cells ==>
              forall n :: n in pool.cells[kindOf(item)] ==> !IsFree(parent, n)
  {
    if kindOf(item) !in pool.cells then None
    else FirstFree(pool.cells[kindOf(item)], parent)
  }

  /** Header views are pooled in one list under the same first-free discipline. */
  function EnqueueReusableHeader<K>(pool: Pool<K>, header: NodeId): (r: Pool<K>)
    ensures r.headers == pool.headers + [header]
    ensures r.cells == pool.cells
  {
    pool.(headers := pool.headers + [header])
  }

  function DequeueReusableHeader<K>(pool: Pool<K>, parent: ParentLinks): (r: Option<NodeId>)
    ensures r.Some? ==> r.value in pool.headers && IsFree(parent, r.value)
    ensures r.Some? ==> exists i :: 0 <= i < |pool.headers| && pool.headers[i] == r.value
                          && forall j :: 0 <= j < i ==> !IsFree(parent, pool.headers[j])
    ensures r.None? <==> forall n :: n in pool.headers ==> !IsFree(parent, n)
  {
    FirstFree(pool.headers, parent)
  }

  lemma {:induction false} FirstFreeAppend(nodes: seq<NodeId>, parent: ParentLinks, n: NodeId)
    requires IsFree(parent, n)
    ensures FirstFree(nodes + [n], parent)
              == if FirstFree(nodes, parent).Some? then FirstFree(nodes, parent) else Some(n)
  {
    if |nodes| > 0 && !IsFree(parent, nodes[0]) {
      FirstFreeAppend(nodes[1..], parent, n);
      assert (nodes + [n])[1..] == nodes[1..] + [n];
    }
  }

  /** Enqueueing a free view makes its kind dequeueable: the dequeue still
      yields the earlier free view when there was one, and the new view
      otherwise. */
  lemma EnqueueThenDequeue<T, K>(pool: Pool<K>, parent: ParentLinks, kindOf: T -> K, item: T, cell: NodeId)
    requires IsFree(parent, cell)
    ensures DequeueReusableCell(EnqueueReusableCell(pool, kindOf, item, cell), parent, kindOf, item)
              == if DequeueReusableCell(pool, parent, kindOf, item).Some?
                 then DequeueReusableCell(pool, parent, kindOf, item)
                 else Some(cell)
  {
    FirstFreeAppend(CellsOfKind(pool, kindOf(item)), parent, cell);
  }

  /** Enqueueing under one kind does not change what another kind dequeues. */
  lemma EnqueueKeepsOtherKinds<T, K>(pool: Pool<K>, parent: ParentLinks, kindOf: T -> K, item: T, cell: NodeId, other: T)
    requires kindOf(other) != kindOf(item)
    ensures DequeueReusableCell(EnqueueReusableCell(pool, kindOf, item, cell), parent, kindOf, other)
              == DequeueReusableCell(pool, parent, kindOf, other)
  {
  }

  /** The header list behaves the same way as a row list. */
  lemma EnqueueThenDequeueHeader<K>(pool: Pool<K>, parent: ParentLinks, header: NodeId)
    requires IsFree(parent, header)
    ensures DequeueReusableHeader(EnqueueReusableHeader(pool, header), parent)
              == if DequeueReusableHeader(pool, parent).Some?
                 then DequeueReusableHeader(pool, parent)
                 else Some(header)
  {
    FirstFreeAppend(pool.headers, parent, header);
  }
}
